=== FILE: README.md ===
# Conjur credential manager: configuration and secret-path templates

This project models the configuration side of Concourse's Conjur credential
manager (`atc/creds/conjur/manager.go`). Users configure two secret-path
templates, one for pipelines and one for teams. The model covers how each
template is built and refused, and how `Validate` executes both templates
against a placeholder `Secret` record. It also covers the all-or-nothing
check of the four connection settings (login, API key, appliance URL,
account), `IsConfigured`, and the order in which `NewSecretsFactory` hands
the templates to the factory: pipeline first, team second.

Everything in the core is pure, so it is modelled with datatypes, functions
and lemmas:

- `results.dfy` holds the `Result` and `Outcome` datatypes. They
  stand in for Go's `(value, error)` and `error` returns.
- `go_template.dfy` (module `GoTemplate`) models the part of Go's
  `text/template` the manager relies on:
  - a parser for literal text and `{{.Field}}` actions;
  - `parse.IsEmptyTree`;
  - strict execution, where a reference to a field the data lacks is an
    error, not a blank.

  A template's data is a map from field names to values.
- `conjur_manager.dfy` (module `ConjurManager`) models:
  - the `Manager` configuration record and the `Secret` record;
  - the default templates and the template names;
  - `buildSecretTemplate`, `Validate` and `IsConfigured`;
  - the template part of `NewSecretsFactory`.

Some facts the lemmas establish:

- For templates made only of literal text and `{{.Field}}` actions, a parse
  tree is empty exactly when the template renders only white space for every
  possible data (`EmptyTreeIffAlwaysBlank`), and exactly when no data makes
  it execute without error and write something visible
  (`EmptyTreeIffNeverVisible`). For such templates the empty-tree check
  refuses exactly those that can never produce a visible path. This does not
  carry over to other actions (see "Left out").
- Printing a canonical tree and parsing the text gives the tree back
  (`ParseUnparse`), and every tree the parser produces is canonical.
- Blanks around the field inside an action at the start of the text do not
  change the parse (`ActionBlanksIgnored`): `{{ .Team }}` reads as
  `{{.Team}}`. An action at the start of the text that is never closed is a
  syntax error (`UnclosedActionIsSyntaxError`), and a syntax error stays one
  behind leading literal text (`ParseTextHeadError`).
- For templates made only of literal text and `{{.Field}}` actions, running
  a template once on the placeholder record decides how it runs on every
  record (`DryRunDecidesEveryRun`). This does not carry over to other
  actions (see "Left out").
- `Validate` passes exactly when both templates build and refer only to
  `Team`, `Pipeline` and `Secret`, and the four connection settings are
  either all empty or all given. When some settings are given, the error
  names the first empty one in the order login, API key, appliance URL,
  account.

On one point the code is more precise than a plain "pipeline template
first, then team template" reading. `Validate` builds both templates before
it executes either (`manager.go:94-110`). So a team template that fails to
parse, or is empty, is reported ahead of a pipeline template that refers to
an unknown field. The model follows the code. `ValidateBuildErrorOrder` and
`ValidateExecutionErrorOrder` state the full order, and
`TeamBuildErrorBeforePipelineFieldError` shows a concrete case.

## Model

| member | source | states |
|---|---|---|
| `GoTemplate.Parse` | atc/creds/conjur/manager.go:37 | a successful parse yields a canonical tree: non-empty literal nodes free of `{{`, never two literals in a row; the tree is empty only for empty text, and text opening with `{{` starts with a field reference |
| `GoTemplate.ParseUnparse` | atc/creds/conjur/manager.go:37 | printing a canonical tree loses nothing: parsing the printed text gives the same tree back |
| `GoTemplate.ActionBlanksIgnored` | atc/creds/conjur/manager.go:37 | blanks (space, tab, carriage return, newline) before the `.` and after the field name inside an action leave the parse unchanged, whatever text follows, including when that text is a syntax error |
| `GoTemplate.SpacedActionParses` | atc/creds/conjur/manager.go:37 | the text `{{ .Team }}` parses to a single reference to the field `Team` |
| `GoTemplate.UnclosedActionIsSyntaxError` | atc/creds/conjur/manager.go:37-40 | a text that opens an action with `{{` and never has `}}` after it is a syntax error, which building reports |
| `GoTemplate.ParseTextHeadError` | atc/creds/conjur/manager.go:37-40 | putting literal text free of `{{` in front of a text that is a syntax error leaves it a syntax error |
| `GoTemplate.Render` | atc/creds/conjur/manager.go:37 | strict execution (an unknown field of `Secret` is an error; `missingkey=error` makes a missing map key one too) succeeds exactly when every referenced field is in the data; on failure it names a field that the tree refers to and the data lacks |
| `GoTemplate.RenderStopsAtFirstUnknown` | atc/creds/conjur/manager.go:37 | a failed execution reports the first reference, in template order, to a field the data lacks: every reference before it is to a field the data has |
| `GoTemplate.RenderAppend` | atc/creds/conjur/manager.go:105 | execution is left to right: the output of a concatenation is the concatenation of the outputs, and it fails exactly when either part fails |
| `GoTemplate.Execute` | atc/creds/conjur/manager.go:105-110 | execution fails exactly when the tree refers to a field the data lacks, and the error carries the template's name and that field |
| `GoTemplate.EmptyTreeRendersBlank` | atc/creds/conjur/manager.go:41-43 | a tree the empty-tree test accepts renders, against any data, without error and to white space only |
| `GoTemplate.EmptyTreeIffAlwaysBlank` | atc/creds/conjur/manager.go:41-43 | a parse tree is empty exactly when every execution of it succeeds and writes only white space |
| `GoTemplate.NonEmptyTreeShowsSomething` | atc/creds/conjur/manager.go:41-43 | a tree the empty-tree check lets through executes without error and writes something other than white space when every field it refers to is given the value `x` |
| `GoTemplate.EmptyTreeIffNeverVisible` | atc/creds/conjur/manager.go:41-43 | a parse tree is empty exactly when no data makes it execute without error and write something other than white space |
| `ConjurManager.Fields` | atc/creds/conjur/manager.go:30-34 | the record a template sees has exactly the fields `Team`, `Pipeline` and `Secret` |
| `ConjurManager.BuildSecretTemplate` | atc/creds/conjur/manager.go:36-45 | a syntax error gives a syntax error naming the template; building succeeds exactly when the text parses and is not always blank, and exactly when the text parses and some data makes it execute without error and write something other than white space; otherwise the error is the empty-template error; a built template is the parse tree under the given name |
| `ConjurManager.CheckCredentials` | atc/creds/conjur/manager.go:112-134 | passes exactly when the four settings are all empty or all given; otherwise the error is the missing-setting error for the first empty setting in the order login, API key, appliance URL, account, and that setting is empty |
| `ConjurManager.Validate` | atc/creds/conjur/manager.go:92-135 | passes exactly when both templates build and refer only to Secret's fields and the settings are all empty or all given; with usable templates it equals the credential check; with an unusable template it fails with a template error, never a missing-setting one |
| `ConjurManager.ValidateBuildErrorOrder` | atc/creds/conjur/manager.go:94-101 | a pipeline template's syntax or empty-tree error is reported first; once the pipeline template builds, the team template's syntax or empty-tree error is reported |
| `ConjurManager.ValidateExecutionErrorOrder` | atc/creds/conjur/manager.go:103-110 | once both templates build, an unknown field in the pipeline template is reported first, then one in the team template; the error names the template and a field that Secret lacks and the template refers to |
| `ConjurManager.TeamBuildErrorBeforePipelineFieldError` | atc/creds/conjur/manager.go:94-110 | with pipeline template `{{.Token}}` and an empty team template, Validate reports the empty-template error although the pipeline template refers to an unknown field |
| `ConjurManager.DryRunDecidesEveryRun` | atc/creds/conjur/manager.go:103-110 | a template executes on the placeholder record exactly when it executes on every Secret; a dry-run failure means every real execution fails on a field Secret lacks |
| `ConjurManager.FixedMessagesIdentifyError` | atc/creds/conjur/manager.go:118-133 | the fixed error texts (`must provide conjur authn login`, `… authn key`, `… appliance url`, `… account`, and the empty-template text of line 42) are pairwise different, so the text alone tells which check failed and which setting is missing |
| `ConjurManager.ValidateIgnoresCertFile` | atc/creds/conjur/manager.go:22 | changing the certificate file never changes the result of Validate |
| `ConjurManager.IsConfigured` | atc/creds/conjur/manager.go:88-90 | the manager counts as configured exactly when the appliance-URL setting is non-empty; the two lemmas below relate it to the other settings and to Validate |
| `ConjurManager.IsConfiguredReadsOnlyApplianceUrl` | atc/creds/conjur/manager.go:88-90 | two configurations with the same appliance URL agree on IsConfigured, whatever their other fields |
| `ConjurManager.ValidatedConfiguration` | atc/creds/conjur/manager.go:88-90 | for a configuration that passes Validate, IsConfigured holds exactly when all four settings are given, and fails exactly when none is |
| `ConjurManager.FactoryTemplates` | atc/creds/conjur/manager.go:158-168 | the list is produced exactly when both template texts build (parse to a non-empty tree); it then holds exactly two templates, the pipeline template's tree first and the team template's second; a failure is the very error Validate reports; a configuration that passes Validate always yields the list |
| `ConjurManager.DefaultTemplatesParse` | atc/creds/conjur/manager.go:16-17 | the default texts parse to `/concourse/`, Team, `/`, Pipeline, `/`, Secret and to `/concourse/`, Team, `/`, Secret |
| `ConjurManager.DefaultTemplatesBuild` | atc/creds/conjur/manager.go:16-17 | both default templates build, under their template names, to the expected trees |
| `ConjurManager.DefaultPipelineRenders` | atc/creds/conjur/manager.go:16 | the default pipeline tree renders any Secret to `/concourse/<team>/<pipeline>/<secret>` |
| `ConjurManager.DefaultTeamRenders` | atc/creds/conjur/manager.go:17 | the default team tree renders any Secret to `/concourse/<team>/<secret>` |
| `ConjurManager.DefaultCandidatePaths` | atc/creds/conjur/manager.go:168 | with the default templates the factory's first template renders the pipeline path and its second the team path, for every Secret |
| `ConjurManager.DefaultConfigurationValid` | atc/creds/conjur/manager.go:25-26 | the default templates with no connection settings pass Validate |

## Left out

- `Init` (`manager.go:47-74`) and the client construction in `NewSecretsFactory` (`manager.go:139-156`) are left out. They load the Conjur client configuration and log in over the network, so they are foreign calls. In the source a client error is returned before the templates are built; `FactoryTemplates` models only what follows.
- `Health` (`manager.go:76-86`) is left out. It returns a constant status map and has no logic.
- Logging through `lager` and the output written to `ioutil.Discard` are left out. Only whether execution succeeds matters to `Validate`.
- The `Conjur` client field of `Manager` is not modelled. It is only set by `Init`.
- The secret lookup that walks the template list lives in the Conjur factory. That code is not part of this model, so the model stops at the order of the list. The rule that the pipeline template is skipped when the pipeline is empty also belongs to that lookup.
- `GoTemplate.Parse`: only literal text and `{{ .Field }}` actions are modelled. The field is ASCII letters, digits and `_`, and blanks may surround it inside the action. The blanks are those of the `text/template` lexer of Go 1.16 and later: space, tab, carriage return and newline. Older lexers refused a newline or carriage return inside an action; that behaviour is not modelled. Every other action is reported as a syntax error, although Go's parser accepts many of them: pipelines, `{{.}}`, chained fields, comments, trim markers, control structures. Go's syntax-error messages, with their line and column, are not reproduced; a syntax error is only tagged with the template's name.
- `GoTemplate.EmptyTreeIffAlwaysBlank`: the equivalence holds only for the text-and-field templates this model parses. In Go, `parse.IsEmptyTree` is false for every action node, so a template such as `{{""}}` or `{{" "}}` passes the empty-tree check at `manager.go:41` and the dry run at `manager.go:105`, yet every execution writes only white space. The program's check is therefore weaker than "never an empty path".
- `ConjurManager.DryRunDecidesEveryRun`: the equivalence holds only for the text-and-field templates this model parses. In Go, a template such as `{{if ne .Team "team"}}{{.Token}}{{end}}` passes the dry run on the placeholder record (`manager.go:104-105`) and fails on every Secret whose team is not `team`. The program's dry run therefore does not show that a template fails for no record.
- `ConjurManager.Message`: only the messages the manager writes itself are modelled, and they are reproduced exactly. Syntax and execution errors carry the text Go's `text/template` gives them; the model keeps only the template name and the field, not that text.
- `atc/info.go` is not part of this model. It is a metadata record with no behaviour.

=== FILE: conjur_manager.dfy ===
/**
 * The Conjur credential manager's configuration: its fields, the building
 * and checking of the two secret-path templates, the all-or-nothing check
 * of the connection credentials, and the order in which the templates are
 * handed to the secrets factory.
 */
module ConjurManager {
  import opened Results
  import opened GoTemplate

  const DefaultPipelineSecretTemplate: string := "/concourse/{{.Team}}/{{.Pipeline}}/{{.Secret}}"
  const DefaultTeamSecretTemplate: string := "/concourse/{{.Team}}/{{.Secret}}"

  const PipelineTemplateName: string := "pipeline-secret-template"
  const TeamTemplateName: string := "team-secret-template"

  /** The manager's configuration fields (the client handle set up by Init is not part of this model). */
  datatype Manager = Manager(
    conjurApplianceUrl: string,
    conjurAccount: string,
    conjurCertFile: string,
    conjurAuthnLogin: string,
    conjurAuthnApiKey: string,
    pipelineSecretTemplate: string,
    teamSecretTemplate: string)

  /** What a secret-path template is executed against. */
  datatype Secret = Secret(team: string, pipeline: string, secret: string)

  /** The fields a template may refer to, by their Go names. */
  const SecretFieldNames: set<string> := {"Team", "Pipeline", "Secret"}

  /** The record a template sees: the Secret's fields by name; any other name is not there. */
  function Fields(s: Secret): (data: map<string, string>)
    ensures data.Keys == SecretFieldNames
  {
    map["Team" := s.team, "Pipeline" := s.pipeline, "Secret" := s.secret]
  }

  /** The placeholder record templates are executed against at configuration time. */
  const Dummy: Secret := Secret("team", "pipeline", "secret")

  /** The four connection settings that must be given together. */
  datatype CredentialField = AuthnLogin | AuthnApiKey | ApplianceUrl | Account

  /** The order in which missing connection settings are reported. */
  const CredentialOrder: seq<CredentialField> := [AuthnLogin, AuthnApiKey, ApplianceUrl, Account]

  function Credential(m: Manager, f: CredentialField): (value: string)
  {
    match f
    case AuthnLogin => m.conjurAuthnLogin
    case AuthnApiKey => m.conjurAuthnApiKey
    case ApplianceUrl => m.conjurApplianceUrl
    case Account => m.conjurAccount
  }

  datatype ConfigError =
    | TemplateSyntax(template: string)
    | EmptyTemplate
    | TemplateExecution(template: string, field: string)
    | MissingCredential(setting: CredentialField)
  {
    predicate IsTemplateError()
    {
      !MissingCredential?
    }
  }

  /** An error the manager creates itself, with a fixed message. */
  predicate HasFixedMessage(e: ConfigError)
  {
    e.EmptyTemplate? || e.MissingCredential?
  }

  /**
   * The fixed messages of the errors the manager creates itself. Syntax and
   * execution errors carry the text Go's template package gives them, which
   * this model does not reproduce.
   */
  function Message(e: ConfigError): (text: string)
    requires HasFixedMessage(e)
  {
    match e
    case EmptyTemplate => "secret template should not be empty"
    case MissingCredential(AuthnLogin) => "must provide conjur authn login"
    case MissingCredential(AuthnApiKey) => "must provide conjur authn key"
    case MissingCredential(ApplianceUrl) => "must provide conjur appliance url"
    case MissingCredential(Account) => "must provide conjur account"
  }

  /**
   * The fixed messages tell the errors apart: a caller that only sees the
   * text knows which check failed and, for a missing setting, which one.
   */
  lemma FixedMessagesIdentifyError(e1: ConfigError, e2: ConfigError)
    requires HasFixedMessage(e1) && HasFixedMessage(e2)
    ensures Message(e1) == Message(e2) <==> e1 == e2
  {
    if e1 != e2 {
      assert |Message(e1)| != |Message(e2)|;
    }
  }

  // ---------------------------------------------------------------------------
  // Templates

  /**
   * buildSecretTemplate: parse, then refuse a parse tree that is empty.
   * The empty-tree error does not say which template it was.
   */
  function BuildSecretTemplate(name: string, tmpl: string): (r: Result<Template, ConfigError>)
    ensures Parse(tmpl).SyntaxError? ==> r == Failure(TemplateSyntax(name))
    ensures r.Success? <==> Parse(tmpl).Parsed? && !AlwaysBlank(Parse(tmpl).tree)
    ensures r.Success? <==> Parse(tmpl).Parsed? && SometimesVisible(Parse(tmpl).tree)
    ensures Parse(tmpl).Parsed? && AlwaysBlank(Parse(tmpl).tree) ==> r == Failure(EmptyTemplate)
    ensures r.Success? ==> r.value == Template(name, Parse(tmpl).tree)
  {
    match Parse(tmpl)
    case SyntaxError => Failure(TemplateSyntax(name))
    case Parsed(tree) =>
      EmptyTreeIffAlwaysBlank(tree);
      EmptyTreeIffNeverVisible(tree);
      if IsEmptyTree(tree) then Failure(EmptyTemplate) else Success(Template(name, tree))
  }

  /** A template text the manager accepts: it parses, is not empty, and refers only to Secret's fields. */
  ghost predicate TemplateUsable(tmpl: string)
  {
    Parse(tmpl).Parsed? && !IsEmptyTree(Parse(tmpl).tree) && RefsWithin(Parse(tmpl).tree, SecretFieldNames)
  }

  ghost predicate TemplatesUsable(m: Manager)
  {
    TemplateUsable(m.pipelineSecretTemplate) && TemplateUsable(m.teamSecretTemplate)
  }

  // ---------------------------------------------------------------------------
  // Credentials

  ghost predicate NoCredentials(m: Manager)
  {
    forall f: CredentialField :: Credential(m, f) == ""
  }

  ghost predicate AllCredentials(m: Manager)
  {
    forall f: CredentialField :: Credential(m, f) != ""
  }

  /** `CredentialOrder[i]` is the first setting, in reporting order, that is empty. */
  ghost predicate FirstMissing(m: Manager, i: int)
  {
    0 <= i < |CredentialOrder| && Credential(m, CredentialOrder[i]) == ""
    && forall j :: 0 <= j < i ==> Credential(m, CredentialOrder[j]) != ""
  }

  /** The quantified settings predicates, field by field. */
  lemma CredentialsSpelledOut(m: Manager)
    ensures NoCredentials(m) <==>
      m.conjurAuthnLogin == "" && m.conjurAuthnApiKey == "" && m.conjurApplianceUrl == "" && m.conjurAccount == ""
    ensures AllCredentials(m) <==>
      m.conjurAuthnLogin != "" && m.conjurAuthnApiKey != "" && m.conjurApplianceUrl != "" && m.conjurAccount != ""
  {
    assert Credential(m, AuthnLogin) == m.conjurAuthnLogin;
    assert Credential(m, AuthnApiKey) == m.conjurAuthnApiKey;
    assert Credential(m, ApplianceUrl) == m.conjurApplianceUrl;
    assert Credential(m, Account) == m.conjurAccount;
  }

  /** What being the first missing setting says about the settings reported before it. */
  lemma FirstMissingSpelledOut(m: Manager, i: int)
    requires FirstMissing(m, i)
    ensures i > 0 ==> m.conjurAuthnLogin != ""
    ensures i > 1 ==> m.conjurAuthnApiKey != ""
    ensures i > 2 ==> m.conjurApplianceUrl != ""
  {
    if i > 0 { assert Credential(m, CredentialOrder[0]) != ""; }
    if i > 1 { assert Credential(m, CredentialOrder[1]) != ""; }
    if i > 2 { assert Credential(m, CredentialOrder[2]) != ""; }
  }

  /**
   * The credential part of Validate: nothing given is fine; otherwise login,
   * API key, appliance URL and account are each required, in that order.
   */
  function CheckCredentials(m: Manager): (r: Outcome<ConfigError>)
    ensures r.Pass? <==> NoCredentials(m) || AllCredentials(m)
    ensures forall i :: FirstMissing(m, i) && !NoCredentials(m) ==> r == Fail(MissingCredential(CredentialOrder[i]))
    ensures r.Fail? ==> r.error.MissingCredential? && Credential(m, r.error.setting) == ""
  {
    CredentialsSpelledOut(m);
    forall i | FirstMissing(m, i)
      ensures (i > 0 ==> m.conjurAuthnLogin != "") && (i > 1 ==> m.conjurAuthnApiKey != "")
      ensures i > 2 ==> m.conjurApplianceUrl != ""
    {
      FirstMissingSpelledOut(m, i);
    }
    if m.conjurApplianceUrl == "" && m.conjurAccount == "" && m.conjurAuthnLogin == "" && m.conjurAuthnApiKey == "" then
      Pass
    else if m.conjurAuthnLogin == "" then
      Fail(MissingCredential(AuthnLogin))
    else if m.conjurAuthnApiKey == "" then
      Fail(MissingCredential(AuthnApiKey))
    else if m.conjurApplianceUrl == "" then
      Fail(MissingCredential(ApplianceUrl))
    else if m.conjurAccount == "" then
      Fail(MissingCredential(Account))
    else
      Pass
  }

  // ---------------------------------------------------------------------------
  // Validate and IsConfigured

  /**
   * Validate: build both templates, execute both against the placeholder
   * record, then check the credentials. The first failure is the result.
   */
  function Validate(m: Manager): (r: Outcome<ConfigError>)
    ensures r.Pass? <==> TemplatesUsable(m) && (NoCredentials(m) || AllCredentials(m))
    ensures TemplatesUsable(m) ==> r == CheckCredentials(m)
    ensures !TemplatesUsable(m) ==> r.Fail? && r.error.IsTemplateError()
  {
    match BuildSecretTemplate(PipelineTemplateName, m.pipelineSecretTemplate)
    case Failure(e) => Fail(e)
    case Success(pipelineTemplate) =>
      match BuildSecretTemplate(TeamTemplateName, m.teamSecretTemplate)
      case Failure(e) => Fail(e)
      case Success(teamTemplate) =>
        match Execute(pipelineTemplate, Fields(Dummy))
        case Failure(ExecError(name, field)) => Fail(TemplateExecution(name, field))
        case Success(_) =>
          match Execute(teamTemplate, Fields(Dummy))
          case Failure(ExecError(name, field)) => Fail(TemplateExecution(name, field))
          case Success(_) => CheckCredentials(m)
  }

  /** IsConfigured: the manager counts as configured when an appliance URL is given. */
  function IsConfigured(m: Manager): (configured: bool)
    ensures configured <==> Credential(m, ApplianceUrl) != ""
  {
    m.conjurApplianceUrl != ""
  }

  // ---------------------------------------------------------------------------
  // The templates handed to the secrets factory

  /**
   * The template part of NewSecretsFactory: both templates are built, and
   * the factory receives them pipeline first, team second.
   */
  function FactoryTemplates(m: Manager): (r: Result<seq<Template>, ConfigError>)
    ensures r.Success? ==>
      Parse(m.pipelineSecretTemplate).Parsed? && Parse(m.teamSecretTemplate).Parsed? &&
      r.value == [Template(PipelineTemplateName, Parse(m.pipelineSecretTemplate).tree),
                  Template(TeamTemplateName, Parse(m.teamSecretTemplate).tree)]
    ensures r.Failure? ==> Validate(m) == Fail(r.error)
    ensures Validate(m).Pass? ==> r.Success?
    ensures r.Success? <==> TemplateBuilds(m.pipelineSecretTemplate) && TemplateBuilds(m.teamSecretTemplate)
  {
    match BuildSecretTemplate(PipelineTemplateName, m.pipelineSecretTemplate)
    case Failure(e) => Failure(e)
    case Success(pipelineTemplate) =>
      match BuildSecretTemplate(TeamTemplateName, m.teamSecretTemplate)
      case Failure(e) => Failure(e)
      case Success(teamTemplate) => Success([pipelineTemplate, teamTemplate])
  }

  // ---------------------------------------------------------------------------
  // Properties

  /** The template text builds: it parses and its tree is not empty. */
  ghost predicate TemplateBuilds(tmpl: string)
  {
    Parse(tmpl).Parsed? && !IsEmptyTree(Parse(tmpl).tree)
  }

  /**
   * Validate reports build errors of both templates (pipeline first) before
   * it executes either of them.
   */
  lemma ValidateBuildErrorOrder(m: Manager)
    ensures Parse(m.pipelineSecretTemplate).SyntaxError? ==> Validate(m) == Fail(TemplateSyntax(PipelineTemplateName))
    ensures Parse(m.pipelineSecretTemplate).Parsed? && IsEmptyTree(Parse(m.pipelineSecretTemplate).tree) ==>
      Validate(m) == Fail(EmptyTemplate)
    ensures TemplateBuilds(m.pipelineSecretTemplate) && Parse(m.teamSecretTemplate).SyntaxError? ==>
      Validate(m) == Fail(TemplateSyntax(TeamTemplateName))
    ensures (TemplateBuilds(m.pipelineSecretTemplate) && Parse(m.teamSecretTemplate).Parsed?
             && IsEmptyTree(Parse(m.teamSecretTemplate).tree)) ==> Validate(m) == Fail(EmptyTemplate)
  {
    if Parse(m.pipelineSecretTemplate).Parsed? {
      EmptyTreeIffAlwaysBlank(Parse(m.pipelineSecretTemplate).tree);
    }
    if Parse(m.teamSecretTemplate).Parsed? {
      EmptyTreeIffAlwaysBlank(Parse(m.teamSecretTemplate).tree);
    }
  }

  /**
   * Once both templates build, a reference to a field Secret lacks is
   * reported, pipeline template first, naming the template and the field.
   */
  lemma ValidateExecutionErrorOrder(m: Manager)
    ensures (TemplateBuilds(m.pipelineSecretTemplate) && TemplateBuilds(m.teamSecretTemplate)
             && !RefsWithin(Parse(m.pipelineSecretTemplate).tree, SecretFieldNames)) ==>
      Validate(m).Fail? && Validate(m).error.TemplateExecution?
      && Validate(m).error.template == PipelineTemplateName
      && Validate(m).error.field !in SecretFieldNames
      && FieldRef(Validate(m).error.field) in Parse(m.pipelineSecretTemplate).tree
    ensures (TemplateBuilds(m.pipelineSecretTemplate) && TemplateBuilds(m.teamSecretTemplate)
             && RefsWithin(Parse(m.pipelineSecretTemplate).tree, SecretFieldNames)
             && !RefsWithin(Parse(m.teamSecretTemplate).tree, SecretFieldNames)) ==>
      Validate(m).Fail? && Validate(m).error.TemplateExecution?
      && Validate(m).error.template == TeamTemplateName
      && Validate(m).error.field !in SecretFieldNames
      && FieldRef(Validate(m).error.field) in Parse(m.teamSecretTemplate).tree
  {
    if TemplateBuilds(m.pipelineSecretTemplate) && TemplateBuilds(m.teamSecretTemplate) {
      EmptyTreeIffAlwaysBlank(Parse(m.pipelineSecretTemplate).tree);
      EmptyTreeIffAlwaysBlank(Parse(m.teamSecretTemplate).tree);
    }
  }

  /**
   * Executing against the placeholder record decides execution against
   * every record: a template that passes Validate's dry run never fails on
   * a real Secret, and one that fails there fails on every Secret.
   */
  lemma DryRunDecidesEveryRun(t: Template, s: Secret)
    ensures Execute(t, Fields(Dummy)).Success? <==> Execute(t, Fields(s)).Success?
    ensures Execute(t, Fields(Dummy)).Failure? ==>
      Execute(t, Fields(s)).Failure? && Execute(t, Fields(s)).error.field !in SecretFieldNames
  {
  }

  /** The certificate file plays no part in validation. */
  lemma ValidateIgnoresCertFile(m: Manager, certFile: string)
    ensures Validate(m.(conjurCertFile := certFile)) == Validate(m)
  {
    var m' := m.(conjurCertFile := certFile);
    assert m'.pipelineSecretTemplate == m.pipelineSecretTemplate && m'.teamSecretTemplate == m.teamSecretTemplate;
    assert CheckCredentials(m') == CheckCredentials(m);
  }

  /** Whether the manager is configured depends on the appliance URL alone. */
  lemma IsConfiguredReadsOnlyApplianceUrl(m: Manager, m': Manager)
    requires m.conjurApplianceUrl == m'.conjurApplianceUrl
    ensures IsConfigured(m) == IsConfigured(m')
  {
  }

  /**
   * For a configuration that passed Validate, being configured means all
   * four settings are given, and not being configured means none is.
   */
  lemma ValidatedConfiguration(m: Manager)
    requires Validate(m).Pass?
    ensures IsConfigured(m) <==> AllCredentials(m)
    ensures !IsConfigured(m) <==> NoCredentials(m)
  {
    CredentialsSpelledOut(m);
  }

  // ---------------------------------------------------------------------------
  // The default templates

  const DefaultPipelineTree: seq<Segment> :=
    [Lit("/concourse/"), FieldRef("Team"), Lit("/"), FieldRef("Pipeline"), Lit("/"), FieldRef("Secret")]
  const DefaultTeamTree: seq<Segment> :=
    [Lit("/concourse/"), FieldRef("Team"), Lit("/"), FieldRef("Secret")]

  lemma DefaultPipelineTreeCanonical()
    ensures Canonical(DefaultPipelineTree)
  {
    var tree := DefaultPipelineTree;
    assert !HasOpen("/concourse/") && !HasOpen("/");
    assert IsIdent("Team") && IsIdent("Pipeline") && IsIdent("Secret");
    assert forall i | 0 <= i < |tree| :: CanonicalAt(tree, i);
  }

  lemma DefaultTeamTreeCanonical()
    ensures Canonical(DefaultTeamTree)
  {
    var tree := DefaultTeamTree;
    assert !HasOpen("/concourse/") && !HasOpen("/");
    assert IsIdent("Team") && IsIdent("Secret");
    assert forall i | 0 <= i < |tree| :: CanonicalAt(tree, i);
  }

  lemma DefaultPipelineUnparse()
    ensures Unparse(DefaultPipelineTree) == DefaultPipelineSecretTemplate
  {
    assert Unparse([Lit("/concourse/"), FieldRef("Team"), Lit("/"), FieldRef("Pipeline"), Lit("/"), FieldRef("Secret")])
        == "/concourse/{{.Team}}/{{.Pipeline}}/{{.Secret}}";
  }

  lemma DefaultTeamUnparse()
    ensures Unparse(DefaultTeamTree) == DefaultTeamSecretTemplate
  {
    assert Unparse([Lit("/concourse/"), FieldRef("Team"), Lit("/"), FieldRef("Secret")]) == "/concourse/{{.Team}}/{{.Secret}}";
  }

  /** The default template texts print from, and so parse to, the expected trees. */
  lemma DefaultTemplatesParse()
    ensures Parse(DefaultPipelineSecretTemplate) == Parsed(DefaultPipelineTree)
    ensures Parse(DefaultTeamSecretTemplate) == Parsed(DefaultTeamTree)
  {
    DefaultPipelineUnparse();
    DefaultPipelineTreeCanonical();
    ParseUnparse(DefaultPipelineTree);
    DefaultTeamUnparse();
    DefaultTeamTreeCanonical();
    ParseUnparse(DefaultTeamTree);
  }

  lemma DefaultPipelineRenders(s: Secret)
    ensures Render(DefaultPipelineTree, Fields(s)) == Success("/concourse/" + s.team + "/" + s.pipeline + "/" + s.secret)
  {
    var data := Fields(s);
    var p5 := [FieldRef("Secret")];
    assert p5[1..] == [];
    var p4 := [Lit("/")] + p5;
    var p3 := [FieldRef("Pipeline")] + p4;
    var p2 := [Lit("/")] + p3;
    var p1 := [FieldRef("Team")] + p2;
    var p0 := [Lit("/concourse/")] + p1;
    assert p0 == DefaultPipelineTree;
    assert Render(p5, data) == Success(s.secret + "") && s.secret + "" == s.secret;
    assert p4[1..] == p5;
    assert Render(p4, data) == Success("/" + s.secret);
    assert p3[1..] == p4;
    assert Render(p3, data) == Success(s.pipeline + ("/" + s.secret));
    assert p2[1..] == p3;
    assert Render(p2, data) == Success("/" + (s.pipeline + ("/" + s.secret)));
    assert p1[1..] == p2;
    assert Render(p1, data) == Success(s.team + ("/" + (s.pipeline + ("/" + s.secret))));
    assert "/concourse/" + (s.team + ("/" + (s.pipeline + ("/" + s.secret))))
        == "/concourse/" + s.team + "/" + s.pipeline + "/" + s.secret;
  }

  lemma DefaultTeamRenders(s: Secret)
    ensures Render(DefaultTeamTree, Fields(s)) == Success("/concourse/" + s.team + "/" + s.secret)
  {
    var data := Fields(s);
    var t3 := [FieldRef("Secret")];
    assert t3[1..] == [];
    var t2 := [Lit("/")] + t3;
    var t1 := [FieldRef("Team")] + t2;
    var t0 := [Lit("/concourse/")] + t1;
    assert t0 == DefaultTeamTree;
    assert Render(t3, data) == Success(s.secret + "") && s.secret + "" == s.secret;
    assert t2[1..] == t3;
    assert Render(t2, data) == Success("/" + s.secret);
    assert t1[1..] == t2;
    assert Render(t1, data) == Success(s.team + ("/" + s.secret));
    assert "/concourse/" + (s.team + ("/" + s.secret)) == "/concourse/" + s.team + "/" + s.secret;
  }

  /**
   * With the default templates the factory receives the pipeline path
   * `/concourse/<team>/<pipeline>/<secret>` first and the team path
   * `/concourse/<team>/<secret>` second.
   */
  lemma DefaultCandidatePaths(m: Manager, s: Secret)
    requires m.pipelineSecretTemplate == DefaultPipelineSecretTemplate
    requires m.teamSecretTemplate == DefaultTeamSecretTemplate
    ensures FactoryTemplates(m).Success? && |FactoryTemplates(m).value| == 2
    ensures Execute(FactoryTemplates(m).value[0], Fields(s))
      == Success("/concourse/" + s.team + "/" + s.pipeline + "/" + s.secret)
    ensures Execute(FactoryTemplates(m).value[1], Fields(s)) == Success("/concourse/" + s.team + "/" + s.secret)
  {
    DefaultFactoryTemplates(m);
    DefaultPipelineRenders(s);
    DefaultTeamRenders(s);
  }

  lemma DefaultFactoryTemplates(m: Manager)
    requires m.pipelineSecretTemplate == DefaultPipelineSecretTemplate
    requires m.teamSecretTemplate == DefaultTeamSecretTemplate
    ensures FactoryTemplates(m)
      == Success([Template(PipelineTemplateName, DefaultPipelineTree), Template(TeamTemplateName, DefaultTeamTree)])
  {
    DefaultTemplatesBuild();
  }

  lemma DefaultTemplatesBuild()
    ensures BuildSecretTemplate(PipelineTemplateName, DefaultPipelineSecretTemplate)
      == Success(Template(PipelineTemplateName, DefaultPipelineTree))
    ensures BuildSecretTemplate(TeamTemplateName, DefaultTeamSecretTemplate)
      == Success(Template(TeamTemplateName, DefaultTeamTree))
  {
    DefaultTemplatesParse();
    assert !IsEmptyTree(DefaultPipelineTree) by {
      assert DefaultPipelineTree[1].FieldRef?;
    }
    assert !IsEmptyTree(DefaultTeamTree) by {
      assert DefaultTeamTree[1].FieldRef?;
    }
  }

  /** The default configuration with no connection settings given passes Validate. */
  lemma DefaultConfigurationValid()
    ensures Validate(Manager("", "", "", "", "", DefaultPipelineSecretTemplate, DefaultTeamSecretTemplate)) == Pass
  {
    var m := Manager("", "", "", "", "", DefaultPipelineSecretTemplate, DefaultTeamSecretTemplate);
    DefaultCandidatePaths(m, Dummy);
    CredentialsSpelledOut(m);
  }

  /**
   * Both templates are built before either is executed, so an empty team
   * template is reported even when the pipeline template refers to a field
   * that Secret does not have.
   */
  lemma TeamBuildErrorBeforePipelineFieldError(m: Manager)
    requires m.pipelineSecretTemplate == "{{.Token}}" && m.teamSecretTemplate == ""
    ensures Validate(m) == Fail(EmptyTemplate)
    ensures !RefsWithin(Parse(m.pipelineSecretTemplate).tree, SecretFieldNames)
  {
    var tree := [FieldRef("Token")];
    assert CanonicalAt(tree, 0);
    assert Unparse(tree) == "{{.Token}}";
    ParseUnparse(tree);
    assert tree[0].name !in SecretFieldNames;
    ValidateBuildErrorOrder(m);
  }
}

=== FILE: go_template.dfy ===
/**
 * The part of Go's text/template that the Conjur manager relies on:
 * parsing a template made of literal text and `{{.Field}}` actions,
 * deciding whether its parse tree is empty (parse.IsEmptyTree), and
 * executing it with strict field lookup, where a reference to a field the
 * data does not have is an error and never a blank.
 */
module GoTemplate {
  import opened Results

  /** A node of a parse tree: literal text, or a reference `{{.name}}` to a field of the data. */
  datatype Segment = Lit(text: string) | FieldRef(name: string)

  datatype ParseResult = Parsed(tree: seq<Segment>) | SyntaxError

  /** A parsed template together with the name it was created under (used in error messages). */
  datatype Template = Template(name: string, tree: seq<Segment>)

  /** Execution failure: the template's name and the field it could not evaluate. */
  datatype ExecError = ExecError(template: string, field: string)

  // ---------------------------------------------------------------------------
  // Empty trees

  /** White space as Go's unicode.IsSpace sees it (what bytes.TrimSpace removes). */
  predicate IsSpace(c: char)
  {
    c == ' ' || c == '\t' || c == '\n' || c == '\r' || c == '\U{000B}' || c == '\U{000C}'
    || c == '\U{0085}' || c == '\U{00A0}' || c == '\U{1680}'
    || ('\U{2000}' <= c <= '\U{200A}')
    || c == '\U{2028}' || c == '\U{2029}' || c == '\U{202F}' || c == '\U{205F}' || c == '\U{3000}'
  }

  predicate IsBlank(t: string)
  {
    forall i :: 0 <= i < |t| ==> IsSpace(t[i])
  }

  /** parse.IsEmptyTree: no action at all, and every text node is white space only. */
  predicate IsEmptyTree(tree: seq<Segment>)
  {
    forall i :: 0 <= i < |tree| ==> tree[i].Lit? && IsBlank(tree[i].text)
  }

  // ---------------------------------------------------------------------------
  // Execution

  /** Every field the tree refers to is one of `names`. */
  predicate RefsWithin(tree: seq<Segment>, names: set<string>)
  {
    forall i :: 0 <= i < |tree| && tree[i].FieldRef? ==> tree[i].name in names
  }

  /**
   * Executes `tree` against `data` with strict lookup: the output is the
   * literal text with each field replaced by its value, and the first
   * reference to a field that `data` lacks stops execution with that name.
   */
  function Render(tree: seq<Segment>, data: map<string, string>): (r: Result<string, string>)
    ensures r.Success? <==> RefsWithin(tree, data.Keys)
    ensures r.Failure? ==> r.error !in data && FieldRef(r.error) in tree
  {
    if tree == [] then Success("")
    else
      if tree[0].FieldRef? && tree[0].name !in data then Failure(tree[0].name)
      else
        var head := if tree[0].Lit? then tree[0].text else data[tree[0].name];
        match Render(tree[1..], data)
        case Failure(f) => Failure(f)
        case Success(out) => Success(head + out)
  }

  /** Execution stops at the first reference to a field the data lacks, and reports that field. */
  lemma {:induction false} RenderStopsAtFirstUnknown(tree: seq<Segment>, data: map<string, string>)
    requires Render(tree, data).Failure?
    ensures exists i :: 0 <= i < |tree| && tree[i] == FieldRef(Render(tree, data).error)
                        && RefsWithin(tree[..i], data.Keys)
    decreases |tree|
  {
    var f := Render(tree, data).error;
    if tree[0].FieldRef? && tree[0].name !in data {
      assert tree[0] == FieldRef(f) && RefsWithin(tree[..0], data.Keys);
    } else {
      RenderStopsAtFirstUnknown(tree[1..], data);
      var i :| 0 <= i < |tree[1..]| && tree[1..][i] == FieldRef(f) && RefsWithin(tree[1..][..i], data.Keys);
      assert tree[..i + 1] == [tree[0]] + tree[1..][..i];
      assert tree[i + 1] == FieldRef(f) && RefsWithin(tree[..i + 1], data.Keys);
    }
  }

  /** template.Execute: rendering, with a failure reported under the template's name. */
  function Execute(t: Template, data: map<string, string>): (r: Result<string, ExecError>)
    ensures r.Success? <==> RefsWithin(t.tree, data.Keys)
    ensures r.Failure? ==> r.error.template == t.name && r.error.field !in data && FieldRef(r.error.field) in t.tree
  {
    match Render(t.tree, data)
    case Success(out) => Success(out)
    case Failure(f) => Failure(ExecError(t.name, f))
  }

  // ---------------------------------------------------------------------------
  // Parsing

  /** The action delimiter `{{` starts at index `j` of `s`. */
  predicate OpensAt(s: string, j: int)
  {
    0 <= j && j + 1 < |s| && s[j] == '{' && s[j + 1] == '{'
  }

  ghost predicate HasOpen(s: string)
  {
    exists j :: 0 <= j < |s| && OpensAt(s, j)
  }

  /** Index of the first `{{` in `s`, or `|s|` when there is none: where the next text node ends. */
  function OpenAt(s: string): (k: nat)
    ensures k <= |s|
    ensures k < |s| ==> OpensAt(s, k)
    ensures forall j :: 0 <= j < k ==> !OpensAt(s, j)
  {
    if |s| < 2 then |s|
    else if s[0] == '{' && s[1] == '{' then 0
    else
      var k := OpenAt(s[1..]);
      assert forall j :: 1 <= j ==> (OpensAt(s, j) <==> OpensAt(s[1..], j - 1));
      1 + k
  }

  /** Blanks allowed between the delimiters and the field inside an action. */
  predicate IsActionSpace(c: char)
  {
    c == ' ' || c == '\t' || c == '\r' || c == '\n'
  }

  predicate IsIdentChar(c: char)
  {
    'a' <= c <= 'z' || 'A' <= c <= 'Z' || '0' <= c <= '9' || c == '_'
  }

  /** A field name: letters, digits and underscores, not starting with a digit. */
  predicate IsIdent(n: string)
  {
    |n| > 0 && !('0' <= n[0] <= '9') && forall i :: 0 <= i < |n| ==> IsIdentChar(n[i])
  }

  /** Length of the run of action blanks in `t` from index `i` on. */
  function SpaceRun(t: string, i: nat): (k: nat)
    requires i <= |t|
    ensures i + k <= |t|
    ensures forall j :: i <= j < i + k ==> IsActionSpace(t[j])
    ensures i + k < |t| ==> !IsActionSpace(t[i + k])
    decreases |t| - i
  {
    if i < |t| && IsActionSpace(t[i]) then 1 + SpaceRun(t, i + 1) else 0
  }

  /** Length of the run of identifier characters in `t` from index `i` on. */
  function IdentRun(t: string, i: nat): (k: nat)
    requires i <= |t|
    ensures i + k <= |t|
    ensures forall j :: i <= j < i + k ==> IsIdentChar(t[j])
    ensures i + k < |t| ==> !IsIdentChar(t[i + k])
    decreases |t| - i
  {
    if i < |t| && IsIdentChar(t[i]) then 1 + IdentRun(t, i + 1) else 0
  }

  /** What reading an action gives: the field it names and how many characters it used, or nothing. */
  datatype ActionRead = NoAction | Action(field: string, used: nat)

  /**
   * Reads the inside of an action, `t` being the text after `{{`: optional
   * blanks, `.`, a field name, optional blanks and `}}`. Gives the field
   * name and how many characters of `t` the action used.
   */
  function ParseAction(t: string): (r: ActionRead)
    ensures r.Action? ==> IsIdent(r.field) && 2 < r.used <= |t|
    ensures r.Action? ==> t[r.used - 2] == '}' && t[r.used - 1] == '}'
  {
    var a := SpaceRun(t, 0);
    if a < |t| && t[a] == '.' then
      var b := IdentRun(t, a + 1);
      var e := a + 1 + b + SpaceRun(t, a + 1 + b);
      if IsIdent(t[a + 1..a + 1 + b]) && e + 1 < |t| && t[e] == '}' && t[e + 1] == '}' then
        Action(t[a + 1..a + 1 + b], e + 2)
      else NoAction
    else NoAction
  }

  /** The shape every tree produced by Parse has. */
  ghost predicate CanonicalAt(tree: seq<Segment>, i: int)
    requires 0 <= i < |tree|
  {
    match tree[i]
    case FieldRef(name) => IsIdent(name)
    case Lit(text) =>
      text != [] && !HasOpen(text)
      && (i + 1 < |tree| ==> tree[i + 1].FieldRef? && text[|text| - 1] != '{')
  }

  /**
   * Literal nodes are non-empty, hold no `{{`, and are followed only by
   * actions (never by another literal node, nor by a `{{` that would make
   * a `{` at their end start an action).
   */
  ghost predicate Canonical(tree: seq<Segment>)
  {
    forall i :: 0 <= i < |tree| ==> CanonicalAt(tree, i)
  }

  /**
   * Parses template text: text up to the next `{{` is a literal node, and
   * each `{{ .Field }}` is a field reference. Any other action, or a `{{`
   * without its `}}`, is a syntax error.
   */
  function Parse(s: string): (r: ParseResult)
    ensures r.Parsed? ==> Canonical(r.tree)
    ensures r.Parsed? ==> (r.tree == [] <==> s == [])
    ensures r.Parsed? && OpensAt(s, 0) ==> r.tree[0].FieldRef?
    decreases |s|
  {
    if s == [] then Parsed([])
    else
      var k := OpenAt(s);
      if k == 0 then
        match ParseAction(s[2..])
        case NoAction => SyntaxError
        case Action(name, n) =>
          match Parse(s[2 + n..])
          case SyntaxError => SyntaxError
          case Parsed(rest) =>
            CanonicalCons(FieldRef(name), rest);
            Parsed([FieldRef(name)] + rest)
      else
        match Parse(s[k..])
        case SyntaxError => SyntaxError
        case Parsed(rest) =>
          TextNodeCanonical(s, k, rest);
          Parsed([Lit(s[..k])] + rest)
  }

  /** A text node cut at the first `{{`, followed by the parse of what comes after it, is canonical. */
  lemma TextNodeCanonical(s: string, k: nat, rest: seq<Segment>)
    requires 0 < k <= |s|
    requires k < |s| ==> OpensAt(s, k)
    requires forall j :: 0 <= j < k ==> !OpensAt(s, j)
    requires Canonical(rest)
    requires rest == [] <==> k == |s|
    requires rest != [] ==> rest[0].FieldRef?
    ensures Canonical([Lit(s[..k])] + rest)
  {
    var text := s[..k];
    assert forall j :: 0 <= j < |text| && OpensAt(text, j) ==> OpensAt(s, j);
    assert rest != [] ==> (text[k - 1] == '{' ==> OpensAt(s, k - 1));
    CanonicalCons(Lit(text), rest);
  }

  /** Canonical form of a tree is decided node by node from its head. */
  lemma CanonicalCons(head: Segment, rest: seq<Segment>)
    requires Canonical(rest)
    requires CanonicalAt([head] + rest, 0)
    ensures Canonical([head] + rest)
  {
    var tree := [head] + rest;
    forall i | 0 < i < |tree| ensures CanonicalAt(tree, i) {
      assert tree[i] == rest[i - 1];
      assert CanonicalAt(rest, i - 1);
    }
  }

  /** The text a tree prints as, each field written `{{.Field}}`. */
  function Unparse(tree: seq<Segment>): (text: string)
  {
    if tree == [] then ""
    else
      match tree[0]
      case Lit(text) => text + Unparse(tree[1..])
      case FieldRef(name) => "{{." + name + "}}" + Unparse(tree[1..])
  }

  /** OpenAt finds exactly the first `{{`. */
  lemma OpenAtIsFirst(s: string, m: nat)
    requires m <= |s|
    requires m < |s| ==> OpensAt(s, m)
    requires forall j :: 0 <= j < m ==> !OpensAt(s, j)
    ensures OpenAt(s) == m
  {
  }

  /** The text of a tree that starts with a field reference starts with `{{`. */
  lemma UnparseOpensWithAction(tree: seq<Segment>)
    requires tree != [] && tree[0].FieldRef?
    ensures OpensAt(Unparse(tree), 0)
  {
  }

  /** Dropping the head of a canonical tree leaves a canonical tree. */
  lemma CanonicalTail(tree: seq<Segment>)
    requires tree != [] && Canonical(tree)
    ensures Canonical(tree[1..])
  {
    var rest := tree[1..];
    forall i | 0 <= i < |rest| ensures CanonicalAt(rest, i) {
      assert CanonicalAt(tree, i + 1);
    }
  }

  /** The inside of an action `.name}}` reads as that field and uses `|name| + 3` characters. */
  lemma ParseActionOfField(name: string, u: string)
    requires IsIdent(name)
    ensures ParseAction("." + name + "}}" + u) == Action(name, |name| + 3)
  {
    ParseActionOfBlankField("", name, "", u);
    NoBlanksText(name, u);
  }

  /** Rewriting step: the blank-free action text, regrouped for the solver. */
  lemma NoBlanksText(name: string, u: string)
    ensures "" + ("." + (name + ("" + ("}}" + u)))) == "." + name + "}}" + u
  {
    assert "" + ("}}" + u) == "}}" + u;
  }

  /** One step of Parse on text that starts with an action it can read. */
  lemma ParseActionStep(s: string, name: string, n: nat, u: string)
    requires OpensAt(s, 0) && ParseAction(s[2..]) == Action(name, n)
    requires s[2 + n..] == u
    ensures Parse(u).Parsed? ==> Parse(s) == Parsed([FieldRef(name)] + Parse(u).tree)
    ensures Parse(u).SyntaxError? ==> Parse(s) == SyntaxError
  {
    assert OpenAt(s) == 0;
  }

  /** An action `{{.name}}` in front of text parses to a field reference in front of the text's tree. */
  lemma ParseActionHead(name: string, u: string)
    requires IsIdent(name)
    ensures Parse(u).Parsed? ==> Parse("{{." + name + "}}" + u) == Parsed([FieldRef(name)] + Parse(u).tree)
    ensures Parse(u).SyntaxError? ==> Parse("{{." + name + "}}" + u) == SyntaxError
  {
    ActionSlices(name, u);
    ParseActionOfField(name, u);
    ParseActionStep("{{." + name + "}}" + u, name, |name| + 3, u);
  }

  lemma ActionSlices(name: string, u: string)
    ensures OpensAt("{{." + name + "}}" + u, 0)
    ensures ("{{." + name + "}}" + u)[2..] == "." + name + "}}" + u
    ensures ("{{." + name + "}}" + u)[2 + |name| + 3..] == u
  {
    var t := "." + name + "}}" + u;
    assert "{{." + name + "}}" + u == "{{" + t;
  }

  /** Every character of `b` is a blank an action may hold around its field. */
  predicate IsActionBlanks(b: string)
  {
    forall i :: 0 <= i < |b| ==> IsActionSpace(b[i])
  }

  /** A run of blanks ends where the first non-blank is. */
  lemma SpaceRunTo(t: string, i: nat, j: nat)
    requires i <= j < |t| && !IsActionSpace(t[j])
    requires forall k :: i <= k < j ==> IsActionSpace(t[k])
    ensures SpaceRun(t, i) == j - i
  {
  }

  /** A run of identifier characters ends where the first other character is. */
  lemma IdentRunTo(t: string, i: nat, j: nat)
    requires i <= j < |t| && !IsIdentChar(t[j])
    requires forall k :: i <= k < j ==> IsIdentChar(t[k])
    ensures IdentRun(t, i) == j - i
  {
  }

  /** Where the parts of an action with blanks around `.name` sit in its text. */
  lemma BlankActionLayout(t: string, b1: string, name: string, b2: string, u: string)
    requires t == b1 + ("." + (name + (b2 + ("}}" + u))))
    ensures forall k :: 0 <= k < |b1| ==> t[k] == b1[k]
    ensures t[|b1|] == '.'
    ensures t[|b1| + 1..|b1| + 1 + |name|] == name
    ensures forall k :: 0 <= k < |b2| ==> t[|b1| + 1 + |name| + k] == b2[k]
    ensures t[|b1| + 1 + |name| + |b2|] == '}' && t[|b1| + 1 + |name| + |b2| + 1] == '}'
  {
    var t1 := "." + (name + (b2 + ("}}" + u)));
    var t2 := name + (b2 + ("}}" + u));
    var t3 := b2 + ("}}" + u);
    assert t[|b1|..] == t1;
    assert t1[1..] == t2;
    assert t2[..|name|] == name;
    assert t[|b1| + 1..|b1| + 1 + |name|] == t2[..|name|];
    assert t2[|name|..] == t3;
    assert t[|b1| + 1 + |name|..] == t3;
    assert t3[|b2|..] == "}}" + u;
  }

  /** ParseAction on text whose runs are known. */
  lemma ParseActionReads(t: string, a: nat, b: nat, c: nat)
    requires a + 1 + b + c + 1 < |t| && SpaceRun(t, 0) == a && t[a] == '.'
    requires IdentRun(t, a + 1) == b && SpaceRun(t, a + 1 + b) == c
    requires IsIdent(t[a + 1..a + 1 + b])
    requires t[a + 1 + b + c] == '}' && t[a + 1 + b + c + 1] == '}'
    ensures ParseAction(t) == Action(t[a + 1..a + 1 + b], a + 1 + b + c + 2)
  {
  }

  /** The inside of an action with blanks around `.name` reads as the field `name`. */
  lemma ParseActionOfBlankField(b1: string, name: string, b2: string, u: string)
    requires IsActionBlanks(b1) && IsIdent(name) && IsActionBlanks(b2)
    ensures ParseAction(b1 + ("." + (name + (b2 + ("}}" + u))))) == Action(name, |b1| + |name| + |b2| + 3)
  {
    var t := b1 + ("." + (name + (b2 + ("}}" + u))));
    BlankActionRuns(t, b1, name, b2, u);
    ParseActionReads(t, |b1|, |name|, |b2|);
  }

  /** The three runs ParseAction measures in an action with blanks around `.name`. */
  lemma BlankActionRuns(t: string, b1: string, name: string, b2: string, u: string)
    requires IsActionBlanks(b1) && IsIdent(name) && IsActionBlanks(b2)
    requires t == b1 + ("." + (name + (b2 + ("}}" + u))))
    ensures SpaceRun(t, 0) == |b1|
    ensures IdentRun(t, |b1| + 1) == |name|
    ensures SpaceRun(t, |b1| + 1 + |name|) == |b2|
    ensures t[|b1|] == '.' && t[|b1| + 1..|b1| + 1 + |name|] == name
    ensures t[|b1| + 1 + |name| + |b2|] == '}' && t[|b1| + 1 + |name| + |b2| + 1] == '}'
  {
    var p := |b1| + 1;
    var q := p + |name|;
    BlankActionLayout(t, b1, name, b2, u);
    SpaceRunTo(t, 0, |b1|);
    assert forall k :: p <= k < q ==> t[k] == name[k - p];
    IdentRunTo(t, p, q);
    SpaceRunTo(t, q, q + |b2|);
  }

  /** An action with blanks around `.name` in front of text, read one step. */
  lemma ParseBlankActionHead(b1: string, name: string, b2: string, u: string)
    requires IsActionBlanks(b1) && IsIdent(name) && IsActionBlanks(b2)
    ensures Parse(u).Parsed? ==>
      Parse("{{" + (b1 + ("." + (name + (b2 + ("}}" + u)))))) == Parsed([FieldRef(name)] + Parse(u).tree)
    ensures Parse(u).SyntaxError? ==> Parse("{{" + (b1 + ("." + (name + (b2 + ("}}" + u)))))) == SyntaxError
  {
    ParseActionOfBlankField(b1, name, b2, u);
    BlankActionRest(b1, name, b2, u);
    ParseOpenStep(b1 + ("." + (name + (b2 + ("}}" + u)))), name, |b1| + |name| + |b2| + 3, u);
  }

  /** Rewriting step: what follows an action with blanks is the text after its `}}`. */
  lemma BlankActionRest(b1: string, name: string, b2: string, u: string)
    ensures (b1 + ("." + (name + (b2 + ("}}" + u)))))[|b1| + |name| + |b2| + 3..] == u
  {
  }

  /** One step of Parse on `{{` followed by the inside of an action it can read. */
  lemma ParseOpenStep(t: string, name: string, n: nat, u: string)
    requires ParseAction(t) == Action(name, n) && t[n..] == u
    ensures Parse(u).Parsed? ==> Parse("{{" + t) == Parsed([FieldRef(name)] + Parse(u).tree)
    ensures Parse(u).SyntaxError? ==> Parse("{{" + t) == SyntaxError
  {
    var s := "{{" + t;
    assert OpensAt(s, 0);
    assert s[2..] == t;
    assert s[2 + n..] == u;
    ParseActionStep(s, name, n, u);
  }

  /**
   * Blanks around the field inside an action do not change the parse:
   * `{{ .name }}` parses as `{{.name}}` does, whatever text follows.
   */
  lemma ActionBlanksIgnored(b1: string, name: string, b2: string, u: string)
    requires IsActionBlanks(b1) && IsIdent(name) && IsActionBlanks(b2)
    ensures Parse("{{" + (b1 + ("." + (name + (b2 + ("}}" + u)))))) == Parse("{{." + name + "}}" + u)
  {
    ParseBlankActionHead(b1, name, b2, u);
    ParseActionHead(name, u);
  }

  /** `{{ .Team }}`, with a blank on each side of the field, reads as the field `Team`. */
  lemma SpacedActionParses()
    ensures Parse("{{ .Team }}") == Parsed([FieldRef("Team")])
  {
    SpacedActionAsPlain();
    PlainActionParses();
  }

  lemma SpacedActionAsPlain()
    ensures Parse("{{ .Team }}") == Parse("{{.Team}}")
  {
    ActionBlanksIgnored(" ", "Team", " ", "");
    SpacedActionText();
    PlainActionText();
  }

  lemma PlainActionParses()
    ensures Parse("{{.Team}}") == Parsed([FieldRef("Team")])
  {
    ParseActionHead("Team", "");
    PlainActionText();
    assert Parse("") == Parsed([]);
  }

  /** Rewriting step: `{{ .Team }}` spelled out as its parts. */
  lemma SpacedActionText()
    ensures "{{" + (" " + ("." + ("Team" + (" " + ("}}" + ""))))) == "{{ .Team }}"
  {
  }

  /** Rewriting step: `{{.Team}}` spelled out as its parts. */
  lemma PlainActionText()
    ensures "{{." + "Team" + "}}" + "" == "{{.Team}}"
  {
    var open := "{{." + "Team";
    assert open == "{{.Team";
    assert open + "}}" == "{{.Team}}";
  }

  /** An action that is opened and never closed is a syntax error. */
  lemma UnclosedActionIsSyntaxError(t: string)
    requires forall j :: 0 <= j < |t| - 1 ==> !(t[j] == '}' && t[j + 1] == '}')
    ensures Parse("{{" + t) == SyntaxError
  {
    var s := "{{" + t;
    assert OpensAt(s, 0);
    assert s[2..] == t;
    assert OpenAt(s) == 0;
    assert ParseAction(t).NoAction?;
  }

  /** In text free of `{{` followed by nothing or by an action, the first `{{` is the action's. */
  lemma OpenAtAfterText(text: string, u: string)
    requires text != [] && !HasOpen(text)
    requires u != [] ==> OpensAt(u, 0) && text[|text| - 1] != '{'
    ensures OpenAt(text + u) == |text|
  {
    var s := text + u;
    forall j | 0 <= j < |text| ensures !OpensAt(s, j) {
      if j + 1 < |text| {
        assert !OpensAt(text, j);
      }
    }
    OpenAtIsFirst(s, |text|);
  }

  /** Text free of `{{`, in front of nothing or of an action, parses to one literal node. */
  lemma ParseTextHead(text: string, u: string)
    requires text != [] && !HasOpen(text) && Parse(u).Parsed?
    requires u != [] ==> OpensAt(u, 0) && text[|text| - 1] != '{'
    ensures Parse(text + u) == Parsed([Lit(text)] + Parse(u).tree)
  {
    var s := text + u;
    OpenAtAfterText(text, u);
    assert s[..|text|] == text;
    assert s[|text|..] == u;
  }

  /** A syntax error in the rest of the text is still a syntax error behind leading text free of `{{`. */
  lemma ParseTextHeadError(text: string, u: string)
    requires text != [] && !HasOpen(text) && OpensAt(u, 0) && text[|text| - 1] != '{'
    requires Parse(u).SyntaxError?
    ensures Parse(text + u) == SyntaxError
  {
    OpenAtAfterText(text, u);
    assert (text + u)[|text|..] == u;
  }

  /** Printing a canonical tree and parsing the text gives the tree back. */
  lemma {:induction false} ParseUnparse(tree: seq<Segment>)
    requires Canonical(tree)
    ensures Parse(Unparse(tree)) == Parsed(tree)
    decreases |tree|
  {
    if tree == [] {
      return;
    }
    var rest := tree[1..];
    CanonicalTail(tree);
    ParseUnparse(rest);
    assert tree == [tree[0]] + rest;
    assert CanonicalAt(tree, 0);
    match tree[0]
    case FieldRef(name) =>
      ParseActionHead(name, Unparse(rest));
    case Lit(text) =>
      if rest != [] {
        UnparseOpensWithAction(rest);
      }
      ParseTextHead(text, Unparse(rest));
  }

  // ---------------------------------------------------------------------------
  // Rendering and empty trees

  /** Rendering is left to right: the output of `a + b` is that of `a` followed by that of `b`. */
  lemma {:induction false} RenderAppend(a: seq<Segment>, b: seq<Segment>, data: map<string, string>)
    ensures Render(a + b, data).Success? <==> Render(a, data).Success? && Render(b, data).Success?
    ensures Render(a + b, data).Success? ==>
      Render(a + b, data).value == Render(a, data).value + Render(b, data).value
    decreases |a|
  {
    if a == [] {
      assert a + b == b;
    } else {
      var ab := a + b;
      assert ab[0] == a[0];
      assert ab[1..] == a[1..] + b;
      if a[0].FieldRef? && a[0].name !in data {
        assert Render(ab, data) == Failure(a[0].name) == Render(a, data);
      } else {
        RenderAppend(a[1..], b, data);
      }
    }
  }

  /** Output made of blank pieces is blank, and a blank output has blank pieces. */
  lemma BlankConcat(x: string, y: string)
    ensures IsBlank(x + y) <==> IsBlank(x) && IsBlank(y)
  {
    if IsBlank(x + y) {
      assert forall i :: 0 <= i < |x| ==> x[i] == (x + y)[i];
      assert forall i :: 0 <= i < |y| ==> y[i] == (x + y)[|x| + i];
    }
  }

  /** An empty tree renders, against any data, to white space. */
  lemma {:induction false} EmptyTreeRendersBlank(tree: seq<Segment>, data: map<string, string>)
    requires IsEmptyTree(tree)
    ensures Render(tree, data).Success? && IsBlank(Render(tree, data).value)
    decreases |tree|
  {
    if tree != [] {
      assert IsEmptyTree(tree[1..]) by {
        forall i | 0 <= i < |tree[1..]| ensures tree[1..][i].Lit? && IsBlank(tree[1..][i].text) {
          assert tree[1..][i] == tree[i + 1];
        }
      }
      EmptyTreeRendersBlank(tree[1..], data);
      assert tree[0].Lit? && IsBlank(tree[0].text);
      BlankConcat(tree[0].text, Render(tree[1..], data).value);
    }
  }

  /** Whatever data it is given, the template executes without error and writes only white space. */
  ghost predicate AlwaysBlank(tree: seq<Segment>)
  {
    forall data: map<string, string> :: Render(tree, data).Success? && IsBlank(Render(tree, data).value)
  }

  /**
   * The empty-tree test rejects exactly the templates whose output is white
   * space for every input: a template with an action, or with visible text,
   * renders something visible (or fails) for some data.
   */
  lemma EmptyTreeIffAlwaysBlank(tree: seq<Segment>)
    ensures IsEmptyTree(tree) <==> AlwaysBlank(tree)
  {
    if IsEmptyTree(tree) {
      forall data: map<string, string>
        ensures Render(tree, data).Success? && IsBlank(Render(tree, data).value)
      {
        EmptyTreeRendersBlank(tree, data);
      }
    } else {
      var i :| 0 <= i < |tree| && !(tree[i].Lit? && IsBlank(tree[i].text));
      var data: map<string, string> := if tree[i].FieldRef? then map[tree[i].name := "x"] else map[];
      var before, node, after := tree[..i], [tree[i]], tree[i + 1..];
      assert tree == before + node + after;
      RenderAppend(before + node, after, data);
      RenderAppend(before, node, data);
      if Render(tree, data).Success? {
        var out := Render(tree, data).value;
        var shown := Render(node, data).value;
        assert !IsBlank(shown) by {
          assert node[1..] == [];
          if tree[i].FieldRef? {
            assert shown == "x";
            assert !IsSpace(shown[0]);
          } else {
            assert shown == tree[i].text + "" == tree[i].text;
          }
        }
        BlankConcat(Render(before, data).value, shown);
        BlankConcat(Render(before + node, data).value, Render(after, data).value);
        assert !IsBlank(out);
      }
    }
  }

  /** Some data makes the template execute without error and write something other than white space. */
  ghost predicate SometimesVisible(tree: seq<Segment>)
  {
    exists data: map<string, string> :: Render(tree, data).Success? && !IsBlank(Render(tree, data).value)
  }

  /** The names of the fields the tree refers to. */
  ghost function FieldNames(tree: seq<Segment>): (names: set<string>)
    ensures RefsWithin(tree, names)
  {
    set j | 0 <= j < |tree| && tree[j].FieldRef? :: tree[j].name
  }

  /**
   * A tree the empty-tree test rejects shows something visible for some
   * data: give every field it refers to the value `x`.
   */
  lemma NonEmptyTreeShowsSomething(tree: seq<Segment>)
    requires !IsEmptyTree(tree)
    ensures SometimesVisible(tree)
  {
    var names := FieldNames(tree);
    var data: map<string, string> := map n | n in names :: "x";
    assert data.Keys == names;
    var i :| 0 <= i < |tree| && !(tree[i].Lit? && IsBlank(tree[i].text));
    var before, node, after := tree[..i], [tree[i]], tree[i + 1..];
    assert tree == before + node + after;
    RenderAppend(before + node, after, data);
    RenderAppend(before, node, data);
    var shown := Render(node, data).value;
    assert !IsBlank(shown) by {
      assert node[1..] == [];
      if tree[i].FieldRef? {
        assert tree[i].name in names;
        assert shown == "x";
        assert !IsSpace(shown[0]);
      } else {
        assert shown == tree[i].text + "" == tree[i].text;
      }
    }
    BlankConcat(Render(before, data).value, shown);
    BlankConcat(Render(before + node, data).value, Render(after, data).value);
  }

  /**
   * The empty-tree test rejects exactly the templates that never show
   * anything visible: for an empty tree every execution writes white space,
   * and any other tree writes something visible for some data.
   */
  lemma EmptyTreeIffNeverVisible(tree: seq<Segment>)
    ensures IsEmptyTree(tree) <==> !SometimesVisible(tree)
  {
    if IsEmptyTree(tree) {
      forall data: map<string, string> ensures !(Render(tree, data).Success? && !IsBlank(Render(tree, data).value)) {
        EmptyTreeRendersBlank(tree, data);
      }
    } else {
      NonEmptyTreeShowsSomething(tree);
    }
  }
}

=== FILE: results.dfy ===
/** Tagged results used in place of Go's `(value, error)` returns. */
module Results {

  /** A value or an error: Go's `(T, error)` pair where exactly one side is meaningful. */
  datatype Result<+T, +E> = Success(value: T) | Failure(error: E)

  /** A bare `error` return: `nil` is `Pass`. */
  datatype Outcome<+E> = Pass | Fail(error: E)

}
